=== FILE: README.md ===
# Alex secure command channel — Dafny model

This project models the sequential core of the Alex robot's operator client and of
the Pi-side serial test program:

- **Frame codec and dispatch** (`AlexProtocol`, file `alex_protocol.dfy`). The writer turns
  one keystroke and the two `int32_t` parameters into a 10-byte command frame: tag,
  key, and both parameters as `memcpy` lays them out. The fixed parameter table
  decides what each key carries. The receive side dispatches a 128-byte buffer on
  its first byte to the error, status, message or command handler. It maps the
  response code to one of six lines and reads the status counters out of bytes 1-64.
- **Reader and writer loops** (`AlexTasks`, file `alex_tasks.dfy`). The reader loop updates
  `networkActive` and the receive buffer after each read and dispatches only
  positive-length reads. The writer loop sends one frame per command key, reports
  unknown keys, and stops at `q`/`Q`. When either loop ends it calls `stopClient`.
- **Serial frame reassembly** (`SerialReassembly`, file `serial_reassembly.dfy`). Byte 0 of
  the first read is the announced size. The rest of that read, and each later
  positive-length read, is appended to the holding buffer until the announced size
  is reached. A `TData` is then copied out of the front of the buffer.
- **Client control state** (`TlsClient`, file `tls_client.dfy`). This covers the one-way exit
  flag, `client_is_running`, `stopClient` and the signal handlers. It also covers the
  `strncpy` capture of the configuration in `createClient` and the decision skeleton
  of the client loop. That skeleton runs over the results of socket, resolver,
  connect, handshake and certificate check, which are inputs.

Shared pieces are in `bytes.dfy`: the `byte` and `Int32` types, the signed-`char`
view of a byte, the little-endian `int32_t` layout, and C strings.

Assumptions fixed in the model:

- Host ABI: `char` is signed and 8 bits wide. This is the x86 convention, taken as an
  assumption throughout. GCC on ARM Linux, where the Pi runs the serial program, makes
  plain `char` unsigned; there the announced size at alex/w7s2pi/w8s2p3-pi.cpp:51 is
  0..255 rather than the signed reading `SerialReassembly.TargetSize` uses. `int32_t` is stored little-endian in
  two's complement. `TData` (`char`, `int32_t`, `int32_t`) takes 12 bytes on the Pi:
  the `char`, three padding bytes, then the two integers.
- The packet tags and response codes come from headers that are not part of this
  model. They are the parameter `WireCodes`. Its `Valid()` predicate asks only that
  each value fits in a `char` and that the four tags, and the five codes, are pairwise
  distinct. A `switch` on `buffer[0]` or `buffer[1]` compares the sign-extended byte
  with these values, and the model does the same (`SignedChar`).
- Blocking I/O is modelled as a finite series of results. A loop that uses up its
  inputs without reaching its exit condition is still waiting; the model does not
  claim it ends.

The code differs from a plain reading of the protocol in these points, and the
model follows the code:

- The command frame is exactly 10 bytes (1 + 1 + 8). It has no padding bytes.
- The client's reader does not reassemble frames. Each read goes straight to
  `handleNetwork`, with stale bytes from earlier reads still in the rest of the
  buffer (`AlexTasks.Overlay`). The reader loops on `networkActive`, not on the exit
  flag. Reassembly happens only in the Pi's serial program.
- The writer loop ends only on `q`/`Q`. It never looks at the result of a write.
- After a failed server-certificate check, the client loop tears down but does not
  exit. It goes on to start the reader and writer on the freed session. Once the
  exit flag is set, it tears down a second time
  (`TlsClient.FailedVerificationFallsThrough`, `TlsClient.TeardownOnlyAfterExitFlag`).

## Model

| member | source | states |
|---|---|---|
| Bytes.SignedChar | client/tls-alex-client.cpp:78 | a byte read through `char` is in -128..127 and congruent to the byte mod 256 |
| Bytes.CharRoundTrip | client/tls-alex-client.cpp:194 | storing a char-sized tag in a `char` and reading it back gives the tag |
| Bytes.WordRoundTrip | client/tls-alex-client.cpp:206 | `memcpy` of an `int32_t` into 4 bytes and back is the identity (little-endian) |
| Bytes.ReadWordRoundTrip | client/tls-alex-client.cpp:46 | reading 4 bytes as an `int32_t` and writing it back gives the same bytes |
| Bytes.WordsOfReads | client/tls-alex-client.cpp:45-46 | `int32_t`s read one by one out of consecutive 4-byte groups lay out exactly those bytes again |
| Bytes.WordsAt | client/tls-alex-client.cpp:45-46 | element i of an `int32_t` array occupies bytes 4i..4i+3 of its image |
| Bytes.CString | client/tls-alex-client.cpp:65 | the `%s` text is the longest NUL-free prefix, ended by a NUL or by the end of the buffer |
| Bytes.CStringOfTerminated | client/tls-alex-client.cpp:65 | a NUL-terminated text reads back unchanged whatever follows the NUL |
| AlexProtocol.EncodeCommand | client/tls-alex-client.cpp:191-206 | the frame is 10 bytes: the command tag at byte 0, the key at byte 1, the first parameter at bytes 2-5 and the second at 6-9, each as `memcpy` lays out an `int32_t` |
| AlexProtocol.CommandRoundTrip | client/tls-alex-client.cpp:191-206 | decoding an encoded command gives back the key and both parameters |
| AlexProtocol.DecodedCommandReencodes | client/tls-alex-client.cpp:191-206 | every frame the decoder accepts is the encoding of its decoded command |
| AlexProtocol.CommandParams | client/tls-alex-client.cpp:197-256 | a key has a parameter pair exactly when it is a command key; f/F/b/B carry the entered pair and every other command key one of the four fixed pairs |
| AlexProtocol.WriterStep | client/tls-alex-client.cpp:194-263 | q/Q quits and every command key sends a 10-byte frame, each case exactly; tag at byte 0, key at byte 1; all other keys are bad commands |
| AlexProtocol.WriterFrameDecodes | client/tls-alex-client.cpp:197-256 | the frame of a command key reads back as that key with its table parameters |
| AlexProtocol.ParameterTable | client/tls-alex-client.cpp:197-256 | f/F/b/B carry the entered pair; l/L/r/R carry (20,100); z/Z (45,33); x/X (90,48); s/S/c/C/g/G (0,0) |
| AlexProtocol.EnteredPairOnlyForMovement | client/tls-alex-client.cpp:209-256 | for every key except f/F/b/B the action does not depend on the entered pair |
| AlexProtocol.ForwardFiftySeventyFive | client/tls-alex-client.cpp:197-207 | `f` with (50,75) is the bytes tag,102,50,0,0,0,75,0,0,0 and decodes to the same triple |
| AlexProtocol.Dispatch | client/tls-alex-client.cpp:75-99 | a handler is selected exactly when the sign-extended byte 0 is one of the four tags, and each handler only for its own tag |
| AlexProtocol.DispatchByTag | client/tls-alex-client.cpp:75-99 | each of the four tags selects its own handler and only it; any other tag selects none |
| AlexProtocol.DispatchReadsTagOnly | client/tls-alex-client.cpp:78 | buffers that agree on byte 0 select the same handler |
| AlexProtocol.ErrorMessage | client/tls-alex-client.cpp:14-40 | the printed line is one of the six; RESP_OK prints the OK line and any code outside the five prints "PI IS CONFUSED!" |
| AlexProtocol.ErrorMessageTable | client/tls-alex-client.cpp:14-40 | each of the five response codes prints its own message, and the six messages differ |
| AlexProtocol.ConfusedIffUnknownCode | client/tls-alex-client.cpp:16-39 | "PI IS CONFUSED!" is printed exactly when byte 1 is none of the five codes |
| AlexProtocol.StatusWords | client/tls-alex-client.cpp:43-46 | the sixteen words, laid out again, are exactly bytes 1..64 of the buffer |
| AlexProtocol.StatusReport | client/tls-alex-client.cpp:43-59 | the eleven printed counters, laid out again, are exactly bytes 1..44 of the buffer |
| AlexProtocol.StatusFieldAt | client/tls-alex-client.cpp:45-59 | status field i (i < 11) is the `int32_t` at bytes 1+4i..4+4i |
| AlexProtocol.StatusReadsFirst65Bytes | client/tls-alex-client.cpp:43-46 | the status decode depends on bytes 0..64 only, well inside the 128-byte buffer |
| AlexProtocol.StatusRoundTrip | client/tls-alex-client.cpp:43-59 | a status frame with eleven arbitrary counters, followed by any stale bytes, reports exactly those counters |
| AlexProtocol.StatusReportReencodes | client/tls-alex-client.cpp:43-59 | conversely, a buffer tagged as status is the status frame of the counters it reports, followed by whatever else it holds |
| AlexProtocol.MessageText | client/tls-alex-client.cpp:63-66 | the message is NUL-free, a prefix of bytes 1.., and is ended by a NUL when one follows |
| AlexProtocol.MessageRoundTrip | client/tls-alex-client.cpp:63-66 | a message frame followed by any bytes prints exactly the sent text |
| AlexProtocol.HandleNetwork | client/tls-alex-client.cpp:14-99 | an error report is the line `handleError` picks from the response code in byte 1 (one of the six), a status report is the 11 counters at bytes 1..44, a message is the whole NUL-free text from byte 1 up to its terminator or the buffer end |
| AlexProtocol.HandleNetworkFollowsDispatch | client/tls-alex-client.cpp:68-99 | the output kind is the dispatched handler's; the command tag and unknown tags print nothing |
| AlexProtocol.BadChecksumScenario | client/tls-alex-client.cpp:84-86 | a BAD_CHECKSUM error frame runs only the error handler and prints the checksum line |
| AlexTasks.Overlay | client/tls-alex-client.cpp:133 | after a read, the first len bytes are the new ones and the rest of the buffer is stale |
| AlexTasks.ReaderStep | client/tls-alex-client.cpp:133-151 | `networkActive` becomes len > 0, the buffer becomes the new bytes over the stale ones, and exactly a positive read hands that new buffer to the handler |
| AlexTasks.RunReader | client/tls-alex-client.cpp:129-152 | report i is the handler applied to the buffer as read i left it, and only positive reads are dispatched, in order; the first non-positive read ends the loop and no read follows it |
| AlexTasks.ReaderThread | client/tls-alex-client.cpp:124-161 | every positive read before the first failed one is dispatched, in order, and report i is what `handleNetwork` prints for the buffer as read i left it; the loop stops exactly at the first failed read, which leaves the client stopped; while reads succeed all are used and the flag is untouched |
| AlexTasks.RunWriter | client/tls-alex-client.cpp:178-264 | frames are sent in keystroke order for command keys only, bad keys are counted, and the loop stops exactly at the first q/Q |
| AlexTasks.WriterThread | client/tls-alex-client.cpp:178-273 | no q/Q precedes the stop point, so the loop ends at the first q/Q; the frames handed to `sendData` are exactly those of the command keys before it, in order, and the bad keys among them are counted; quitting leaves the client stopped; without q/Q all keys are used and the flag is untouched |
| SerialReassembly.TargetSize | alex/w7s2pi/w8s2p3-pi.cpp:51 | the announced size is byte 0 of the first read as a signed `char` |
| SerialReassembly.FirstPayload | alex/w7s2pi/w8s2p3-pi.cpp:56-58 | the first read adds len-1 bytes (none when len <= 1), without the size byte |
| SerialReassembly.ChunkPayload | alex/w7s2pi/w8s2p3-pi.cpp:62-67 | a later read adds len bytes when len > 0 and nothing otherwise |
| SerialReassembly.LaterPayloadPrefix | alex/w7s2pi/w8s2p3-pi.cpp:60-67 | the bytes gathered from the first k reads are a prefix of those from all reads |
| SerialReassembly.GatheredStep | alex/w7s2pi/w8s2p3-pi.cpp:62-67 | each read appends its contribution right after the bytes held so far |
| SerialReassembly.CopyAt | alex/w7s2pi/w8s2p3-pi.cpp:65 | `memcpy` at an offset replaces exactly that range and keeps the bytes before and after |
| SerialReassembly.CopyExtends | alex/w7s2pi/w8s2p3-pi.cpp:65 | copying right after the held bytes extends them by the copied bytes |
| SerialReassembly.FullFirstReadFits | alex/w7s2pi/w8s2p3-pi.cpp:56-60 | when the first read already holds the announced size, any later reads are admitted, however large, since none is made |
| SerialReassembly.CopyFirstRead | alex/w7s2pi/w8s2p3-pi.cpp:56-58 | after the first read the buffer starts with bytes 1..len-1 of it, count = len-1, and the rest is untouched |
| SerialReassembly.Absorb | alex/w7s2pi/w8s2p3-pi.cpp:62-67 | a positive read grows count by len and appends its bytes; a non-positive one changes nothing |
| SerialReassembly.Reassemble | alex/w7s2pi/w8s2p3-pi.cpp:45-68 | the buffer holds the first read minus its size byte, then every positive later read, in order; the loop was short of the announced size before each read it made, and stops with count >= target (possibly more) or out of input; only amounts the loop can reach must fit the buffer |
| SerialReassembly.FailedReadAddsNothing | alex/w7s2pi/w8s2p3-pi.cpp:63 | a read with len <= 0 leaves the gathered bytes unchanged |
| SerialReassembly.ReadAppends | alex/w7s2pi/w8s2p3-pi.cpp:63-67 | a read with len > 0 appends exactly its first len bytes, and count grows by len |
| SerialReassembly.DecodeTData | alex/w7s2pi/w8s2p3-pi.cpp:71 | the record read out of the buffer, laid out again with the same padding, is exactly its first 12 bytes |
| SerialReassembly.TDataRoundTrip | alex/w7s2pi/w8s2p3-pi.cpp:7-13 | a `TData` laid out in the Pi's layout reads back unchanged, whatever the padding |
| SerialReassembly.TDataReadsPrefixOnly | alex/w7s2pi/w8s2p3-pi.cpp:71 | the decode depends on the first `sizeof(TData)` bytes only |
| SerialReassembly.ReceiveTData | alex/w7s2pi/w8s2p3-pi.cpp:47-71 | the record is decoded from the data gathered up to the exact stop point of the loop at line 60 (short before each read made, announced size reached or input used up), topped up from earlier buffer contents when fewer than 12 bytes arrived |
| TlsClient.ClientIsRunning | client/make_tls_client.cpp:209-211 | the result is 0 or 1, and nonzero exactly when the exit flag is clear |
| TlsClient.Request | client/make_tls_client.cpp:40-53 | `stopClient` and each handler leave the client not running, and change nothing once the flag is set |
| TlsClient.RequestStops | client/make_tls_client.cpp:40-53 | `stopClient` or any signal handler leaves the client not running |
| TlsClient.RequestIdempotent | client/make_tls_client.cpp:214-216 | a second stop request changes nothing |
| TlsClient.RequestsOnlySet | client/make_tls_client.cpp:40-53 | after any non-empty series of requests the flag is 1; nothing resets it |
| TlsClient.RunningUntilFirstRequest | client/make_tls_client.cpp:209-216 | from startup the client is running exactly while no stop has been requested |
| TlsClient.StopIsPermanent | client/make_tls_client.cpp:214-216 | once stopped, later requests keep the client stopped |
| TlsClient.StrNCpy | client/make_tls_client.cpp:177 | the stored name reads back as the source cut to n bytes, NUL-padded when shorter |
| TlsClient.CreateClient | client/make_tls_client.cpp:174-195 | names are stored truncated to 256/128 bytes; CA cert and name on cert only if verifyServer, client cert and key only if sendCert, else those fields are untouched |
| TlsClient.ShortNamesStoredWhole | client/make_tls_client.cpp:177 | a server name shorter than the array is stored whole and NUL-terminated |
| TlsClient.SkippedNamesStayEmpty | client/make_tls_client.cpp:18-26 | on the first call, the names `createClient` skips are the empty string of the zeroed static arrays |
| TlsClient.ClientLoop | client/make_tls_client.cpp:56-159 | when socket, resolution, connect or handshake fails, the last step is an exit with -1 |
| TlsClient.ExitIffSetupFails | client/make_tls_client.cpp:56-123 | the process exits exactly when a setup stage fails; once the host resolves, the context setup comes first and an established session right after it |
| TlsClient.IdentityIffSendCert | client/make_tls_client.cpp:103-106 | once the context is created, the client certificate is configured exactly when `_send_cert` is set, with the stored names |
| TlsClient.VerificationIffVerifyServer | client/make_tls_client.cpp:125-137 | the certificate check runs exactly when a session is established and `_verify_server` is set, with the stored name on cert |
| TlsClient.TasksStartForNonNullPointers | client/make_tls_client.cpp:140-150 | each task starts exactly when established and its pointer is non-NULL; writer before reader; both get the session |
| TlsClient.TeardownOnlyAfterExitFlag | client/make_tls_client.cpp:152-158 | the loop returns only after the flag is set, ending in teardown then return; while it is clear, the only teardown is the one after a failed check |
| TlsClient.FailedVerificationFallsThrough | client/make_tls_client.cpp:125-150 | after a failed check the teardown is followed by starting the writer |
| TlsClient.StartedClientLoadsGivenIdentity | client/make_tls_client.cpp:187-192 | the certificate and key the loop loads are the names passed to `createClient`, truncated |

## Left out

- OpenSSL calls (`init_openssl`, `create_context`, `configure_context`, `connectSSL`, `verifyCertificate`, `setHostVerification`, `printCertificate`, `sslRead`, `sslWrite`): a foreign library. The NULL that `connectSSL` returns after a failed handshake (client/tls_client_lib.cpp:22-27) is the `None` session of `TlsClient.Provider`.
- Sockets, `gethostbyname`, `inet_ntoa`/`inet_pton`, `connect`, `exit()`, `startSerial`, `serialRead`, `serialWrite` and `sleep`: I/O. Their results are inputs. `exit` is a final `ExitProcess` step.
- Threads, `pthread_detach`, the busy-wait on the exit flag, `volatile`, and signal delivery: concurrency. The flag is sequential state, and the stop requests made while the loop waits are an input.
- `networkActive` is shared with `sendData`, which can clear it from the writer's side. That interleaving is concurrency and is not modelled. The reader model owns the flag.
- `sendData`: it writes `sizeof(buffer)` bytes (the size of a pointer) rather than `len`, and it sets `networkActive` from an uninitialised variable (client/tls-alex-client.cpp:104-120). This is undefined behaviour. The model stops at the frame handed to `sendData` and does not claim the frame is transmitted.
- Console I/O: `printf`, `scanf`, `getchar`, `flushInput`, `getParams`, the dump of the raw buffer in the reader, and the status-report formatting. The keystroke and the entered pair are inputs, and printed lines are values.
- `main`'s argument check and `connectToServer`, which ignores its arguments and uses the compiled-in names: command-line glue.
- The Pi program's endless outer loop and its start character: one pass of the receive step is modelled.
- The signal handler for SIGKILL is modelled like the other two. The operating system refuses to install it, so it never runs in practice.
- `_closeAndExit` after a failed name lookup frees a session and a context that were never created. The model records a plain teardown step there.
- client/test_tls_client.cpp (a demo echo program), client/make_tls_client.h and client/tls_client_lib.h (declarations only), and the generated ROS `_index.js` modules.
- SerialReassembly.Reassemble: requires every amount the loop can reach (after each read it makes while still short) to fit the 128-byte holding buffer. The code has no bounds check (alex/w7s2pi/w8s2p3-pi.cpp:42, 65), and the overflow is not modelled; reads after the stop point are not bounded.
- SerialReassembly.ReceiveTData: same reachable-amount precondition as `Reassemble`.
- AlexProtocol.MessageText: a buffer with no NUL after byte 0 makes `%s` read past the 128-byte buffer. The model stops at the end of the buffer.
- TlsClient.CreateClient: a name of 128/256 bytes or more is stored with no terminator, and later C-string use would read past the array. The model reads it only up to the end of the array.

=== FILE: alex_protocol.dfy ===
/**
  The Alex command/status protocol as the operator client frames and reads it:
  command frames built from one keystroke, and the tag-driven dispatch of a
  received buffer to the error, status, message and command handlers.
*/
module AlexProtocol {
  import opened Bytes
  import opened Wrappers

  /** Size of the command frame the writer builds: tag, key, two `int32_t`s. */
  const COMMAND_FRAME_SIZE: nat := 10

  /** Size of the reader's receive buffer. */
  const RECV_BUFFER_SIZE: nat := 128

  /** Number of `int32_t`s the status handler copies out of the buffer. */
  const STATUS_WORDS: nat := 16

  /** Number of those words the status report shows. */
  const STATUS_FIELDS: nat := 11

  /**
    The packet tags and the Arduino response codes. Their header files are not
    part of this model, so their values are parameters; the protocol needs only
    that they fit in a `char` and that each family is pairwise distinct.
  */
  datatype WireCodes = WireCodes(
    errorPacket: int, statusPacket: int, messagePacket: int, commandPacket: int,
    respOk: int, respBadPacket: int, respBadChecksum: int, respBadCommand: int, respBadResponse: int)
  {
    function Tags(): seq<int> {
      [errorPacket, statusPacket, messagePacket, commandPacket]
    }

    function Responses(): seq<int> {
      [respOk, respBadPacket, respBadChecksum, respBadCommand, respBadResponse]
    }

    predicate Valid() {
      && (forall i :: 0 <= i < |Tags()| ==> IsChar(Tags()[i]))
      && (forall i :: 0 <= i < |Responses()| ==> IsChar(Responses()[i]))
      && Distinct(Tags())
      && Distinct(Responses())
    }
  }

  predicate Distinct<T(==)>(s: seq<T>) {
    forall i, j :: 0 <= i < j < |s| ==> s[i] != s[j]
  }

  // ---------------------------------------------------------------------------
  // Command frames (writer side)
  // ---------------------------------------------------------------------------

  /** The two `int32_t` parameters of a command. */
  datatype Params = Params(first: Int32, second: Int32)

  /** A command: the key the operator typed and its parameters. */
  datatype Command = Command(key: byte, params: Params)

  /** The ten-byte frame: tag, key, then both parameters as `memcpy` lays them out. */
  function EncodeCommand(codes: WireCodes, c: Command): (f: seq<byte>)
    ensures |f| == COMMAND_FRAME_SIZE
    ensures f[0] == CharByte(codes.commandPacket) && f[1] == c.key
    ensures f[2..6] == Word(c.params.first) && f[6..10] == Word(c.params.second)
  {
    [CharByte(codes.commandPacket), c.key] + Word(c.params.first) + Word(c.params.second)
  }

  /** Reads a command frame back; rejects a buffer of the wrong size or tag. */
  function DecodeCommand(codes: WireCodes, f: seq<byte>): Option<Command>
  {
    if |f| != COMMAND_FRAME_SIZE || SignedChar(f[0]) != codes.commandPacket then None
    else Some(Command(f[1], Params(ReadWord(f[2..6]), ReadWord(f[6..10]))))
  }

  /** Decoding an encoded command yields the key and both parameters unchanged. */
  lemma CommandRoundTrip(codes: WireCodes, c: Command)
    requires codes.Valid()
    ensures DecodeCommand(codes, EncodeCommand(codes, c)) == Some(c)
  {
    var f := EncodeCommand(codes, c);
    assert codes.Tags()[3] == codes.commandPacket;
    CharRoundTrip(codes.commandPacket);
    assert f[2..6] == Word(c.params.first);
    assert f[6..10] == Word(c.params.second);
    WordRoundTrip(c.params.first);
    WordRoundTrip(c.params.second);
  }

  /** Every frame the decoder accepts is the encoding of what it decodes to. */
  lemma DecodedCommandReencodes(codes: WireCodes, f: seq<byte>, c: Command)
    requires DecodeCommand(codes, f) == Some(c)
    ensures EncodeCommand(codes, c) == f
  {
    ByteRoundTrip(f[0]);
    ReadWordRoundTrip(f[2..6]);
    ReadWordRoundTrip(f[6..10]);
    assert f == [f[0], f[1]] + f[2..6] + f[6..10];
  }

  /** The byte of an ASCII character, as `scanf("%c")` stores it. */
  function Key(c: char): byte
    requires c as int < 128
  {
    c as int
  }

  /** True when the typed byte is one of the characters in `keys`. */
  predicate IsKey(k: byte, keys: string) {
    (k as char) in keys
  }

  const MOVE_KEYS := "fFbB"
  const TURN_KEYS := "lLrR"
  const HALF_TURN_KEYS := "zZ"
  const FULL_TURN_KEYS := "xX"
  const ZERO_PARAM_KEYS := "sScCgG"
  const QUIT_KEYS := "qQ"

  /** Keys the writer turns into a frame. */
  predicate IsCommandKey(k: byte) {
    IsKey(k, MOVE_KEYS) || IsKey(k, TURN_KEYS) || IsKey(k, HALF_TURN_KEYS)
    || IsKey(k, FULL_TURN_KEYS) || IsKey(k, ZERO_PARAM_KEYS)
  }

  /**
    The parameter pair the writer sends for a key. Movement keys carry what the
    operator entered; the others carry pairs fixed in the code.
  */
  function CommandParams(k: byte, entered: Params): (p: Option<Params>)
    ensures p.Some? <==> IsCommandKey(k)
    ensures IsKey(k, MOVE_KEYS) ==> p == Some(entered)
    ensures p.Some? && !IsKey(k, MOVE_KEYS) ==>
      p.value in [Params(20, 100), Params(45, 33), Params(90, 48), Params(0, 0)]
  {
    if IsKey(k, MOVE_KEYS) then Some(entered)
    else if IsKey(k, TURN_KEYS) then Some(Params(20, 100))
    else if IsKey(k, HALF_TURN_KEYS) then Some(Params(45, 33))
    else if IsKey(k, FULL_TURN_KEYS) then Some(Params(90, 48))
    else if IsKey(k, ZERO_PARAM_KEYS) then Some(Params(0, 0))
    else None
  }

  /** What one pass of the writer loop does with a keystroke. */
  datatype WriterAction =
    | Send(frame: seq<byte>)  // the frame handed to `sendData`
    | Quit                    // leaves the loop, sends nothing
    | BadCommand              // reports BAD COMMAND, sends nothing, loops again

  /** One pass of the writer loop: the typed key and the pair `getParams` would read. */
  function WriterStep(codes: WireCodes, k: byte, entered: Params): (a: WriterAction)
    ensures a.Quit? <==> IsKey(k, QUIT_KEYS)
    ensures a.Send? <==> IsCommandKey(k)
    ensures a.Send? ==> |a.frame| == COMMAND_FRAME_SIZE && a.frame[0] == CharByte(codes.commandPacket) && a.frame[1] == k
  {
    if IsKey(k, QUIT_KEYS) then Quit
    else match CommandParams(k, entered)
      case Some(p) => Send(EncodeCommand(codes, Command(k, p)))
      case None => BadCommand
  }

  /** The frame of a key carries, readable at bytes 2-5 and 6-9, the pair for that key. */
  lemma WriterFrameDecodes(codes: WireCodes, k: byte, entered: Params)
    requires codes.Valid()
    requires IsCommandKey(k)
    ensures WriterStep(codes, k, entered).Send?
    ensures DecodeCommand(codes, WriterStep(codes, k, entered).frame)
            == Some(Command(k, CommandParams(k, entered).value))
  {
    CommandRoundTrip(codes, Command(k, CommandParams(k, entered).value));
  }

  /** The fixed parameter table, read back from the frames the writer builds. */
  lemma ParameterTable(codes: WireCodes, k: byte, entered: Params)
    requires codes.Valid()
    ensures IsKey(k, MOVE_KEYS) ==>
      DecodeCommand(codes, WriterStep(codes, k, entered).frame) == Some(Command(k, entered))
    ensures IsKey(k, TURN_KEYS) ==>
      DecodeCommand(codes, WriterStep(codes, k, entered).frame) == Some(Command(k, Params(20, 100)))
    ensures IsKey(k, HALF_TURN_KEYS) ==>
      DecodeCommand(codes, WriterStep(codes, k, entered).frame) == Some(Command(k, Params(45, 33)))
    ensures IsKey(k, FULL_TURN_KEYS) ==>
      DecodeCommand(codes, WriterStep(codes, k, entered).frame) == Some(Command(k, Params(90, 48)))
    ensures IsKey(k, ZERO_PARAM_KEYS) ==>
      DecodeCommand(codes, WriterStep(codes, k, entered).frame) == Some(Command(k, Params(0, 0)))
  {
    if IsCommandKey(k) {
      WriterFrameDecodes(codes, k, entered);
    }
  }

  /** Only the movement keys depend on what the operator entered. */
  lemma EnteredPairOnlyForMovement(codes: WireCodes, k: byte, e1: Params, e2: Params)
    requires !IsKey(k, MOVE_KEYS)
    ensures WriterStep(codes, k, e1) == WriterStep(codes, k, e2)
  {
  }

  /** Scenario: `f` with 50 and 75 reads back as the same triple. */
  lemma ForwardFiftySeventyFive(codes: WireCodes)
    requires codes.Valid()
    ensures var f := WriterStep(codes, Key('f'), Params(50, 75)).frame;
            && f == [CharByte(codes.commandPacket), 102, 50, 0, 0, 0, 75, 0, 0, 0]
            && DecodeCommand(codes, f) == Some(Command(Key('f'), Params(50, 75)))
  {
    assert IsKey(Key('f'), MOVE_KEYS);
    ParameterTable(codes, Key('f'), Params(50, 75));
  }

  // ---------------------------------------------------------------------------
  // Receive-side dispatch
  // ---------------------------------------------------------------------------

  /** The handler `handleNetwork` selects for a buffer. */
  datatype Handler = ErrorHandler | StatusHandler | MessageHandler | CommandHandler | NoHandler

  /** Selects a handler from the sign-extended first byte; unknown tags select none. */
  function Dispatch(codes: WireCodes, buffer: seq<byte>): (h: Handler)
    requires |buffer| >= 1
    ensures h != NoHandler <==> SignedChar(buffer[0]) in codes.Tags()
    ensures h == ErrorHandler ==> SignedChar(buffer[0]) == codes.errorPacket
    ensures h == StatusHandler ==> SignedChar(buffer[0]) == codes.statusPacket
    ensures h == MessageHandler ==> SignedChar(buffer[0]) == codes.messagePacket
    ensures h == CommandHandler ==> SignedChar(buffer[0]) == codes.commandPacket
  {
    var tag := SignedChar(buffer[0]);
    if tag == codes.errorPacket then ErrorHandler
    else if tag == codes.statusPacket then StatusHandler
    else if tag == codes.messagePacket then MessageHandler
    else if tag == codes.commandPacket then CommandHandler
    else NoHandler
  }

  /** Each known tag selects its own handler, and only it; every other tag selects none. */
  lemma DispatchByTag(codes: WireCodes, buffer: seq<byte>)
    requires codes.Valid()
    requires |buffer| >= 1
    ensures Dispatch(codes, buffer) == ErrorHandler <==> SignedChar(buffer[0]) == codes.errorPacket
    ensures Dispatch(codes, buffer) == StatusHandler <==> SignedChar(buffer[0]) == codes.statusPacket
    ensures Dispatch(codes, buffer) == MessageHandler <==> SignedChar(buffer[0]) == codes.messagePacket
    ensures Dispatch(codes, buffer) == CommandHandler <==> SignedChar(buffer[0]) == codes.commandPacket
    ensures Dispatch(codes, buffer) == NoHandler <==> SignedChar(buffer[0]) !in codes.Tags()
  {
    var t := codes.Tags();
    assert t[0] != t[1] && t[0] != t[2] && t[0] != t[3] && t[1] != t[2] && t[1] != t[3] && t[2] != t[3];
  }

  /** Dispatch looks at byte 0 only. */
  lemma DispatchReadsTagOnly(codes: WireCodes, a: seq<byte>, b: seq<byte>)
    requires |a| >= 1 && |b| >= 1 && a[0] == b[0]
    ensures Dispatch(codes, a) == Dispatch(codes, b)
  {
  }

  /** The six lines `handleError` can print. */
  const MSG_OK := "Command / Status OK"
  const MSG_BAD_PACKET := "BAD MAGIC NUMBER FROM ARDUINO"
  const MSG_BAD_CHECKSUM := "BAD CHECKSUM FROM ARDUINO"
  const MSG_BAD_COMMAND := "PI SENT BAD COMMAND TO ARDUINO"
  const MSG_BAD_RESPONSE := "PI GOT BAD RESPONSE FROM ARDUINO"
  const MSG_CONFUSED := "PI IS CONFUSED!"

  /** The line `handleError` prints for the response code at byte 1. */
  function ErrorMessage(codes: WireCodes, buffer: seq<byte>): (m: string)
    requires |buffer| >= 2
    ensures m in [MSG_OK, MSG_BAD_PACKET, MSG_BAD_CHECKSUM, MSG_BAD_COMMAND, MSG_BAD_RESPONSE, MSG_CONFUSED]
    ensures SignedChar(buffer[1]) == codes.respOk ==> m == MSG_OK
    ensures SignedChar(buffer[1]) !in codes.Responses() ==> m == MSG_CONFUSED
  {
    var code := SignedChar(buffer[1]);
    if code == codes.respOk then MSG_OK
    else if code == codes.respBadPacket then MSG_BAD_PACKET
    else if code == codes.respBadChecksum then MSG_BAD_CHECKSUM
    else if code == codes.respBadCommand then MSG_BAD_COMMAND
    else if code == codes.respBadResponse then MSG_BAD_RESPONSE
    else MSG_CONFUSED
  }

  /** The error frame the Pi sends for a response code. */
  function EncodeError(codes: WireCodes, code: int): (f: seq<byte>)
    ensures |f| == 2
  {
    [CharByte(codes.errorPacket), CharByte(code)]
  }

  /** Each known code reads back as its own message; the five messages and the fallback differ. */
  lemma ErrorMessageTable(codes: WireCodes, tail: seq<byte>)
    requires codes.Valid()
    ensures ErrorMessage(codes, EncodeError(codes, codes.respOk) + tail) == MSG_OK
    ensures ErrorMessage(codes, EncodeError(codes, codes.respBadPacket) + tail) == MSG_BAD_PACKET
    ensures ErrorMessage(codes, EncodeError(codes, codes.respBadChecksum) + tail) == MSG_BAD_CHECKSUM
    ensures ErrorMessage(codes, EncodeError(codes, codes.respBadCommand) + tail) == MSG_BAD_COMMAND
    ensures ErrorMessage(codes, EncodeError(codes, codes.respBadResponse) + tail) == MSG_BAD_RESPONSE
    ensures Distinct([MSG_OK, MSG_BAD_PACKET, MSG_BAD_CHECKSUM, MSG_BAD_COMMAND, MSG_BAD_RESPONSE, MSG_CONFUSED])
  {
    var r := codes.Responses();
    assert r[0] != r[1] && r[0] != r[2] && r[0] != r[3] && r[0] != r[4];
    assert r[1] != r[2] && r[1] != r[3] && r[1] != r[4];
    assert r[2] != r[3] && r[2] != r[4] && r[3] != r[4];
    CharRoundTrip(codes.respOk);
    CharRoundTrip(codes.respBadPacket);
    CharRoundTrip(codes.respBadChecksum);
    CharRoundTrip(codes.respBadCommand);
    CharRoundTrip(codes.respBadResponse);
    assert MSG_OK[0] != MSG_BAD_PACKET[0];
    assert MSG_BAD_PACKET[4] != MSG_BAD_CHECKSUM[4];
    assert MSG_BAD_COMMAND[3] != MSG_BAD_RESPONSE[3];
  }

  /** The fallback message is printed exactly when byte 1 is none of the five codes. */
  lemma ConfusedIffUnknownCode(codes: WireCodes, buffer: seq<byte>)
    requires |buffer| >= 2
    ensures ErrorMessage(codes, buffer) == MSG_CONFUSED <==> SignedChar(buffer[1]) !in codes.Responses()
  {
    assert MSG_CONFUSED[0] != MSG_OK[0] && MSG_CONFUSED[0] != MSG_BAD_PACKET[0];
    assert MSG_CONFUSED[3] != MSG_BAD_COMMAND[3] && MSG_CONFUSED[3] != MSG_BAD_RESPONSE[3];
  }

  /** The sixteen words `handleStatus` copies out of bytes 1 to 64 of the buffer. */
  function StatusWords(buffer: seq<byte>): (w: seq<Int32>)
    requires |buffer| >= 1 + 4 * STATUS_WORDS
    ensures |w| == STATUS_WORDS
    ensures Words(w) == buffer[1 .. 1 + 4 * STATUS_WORDS]
  {
    var w := seq(STATUS_WORDS, i requires 0 <= i < STATUS_WORDS => ReadWord(buffer[1 + 4 * i .. 5 + 4 * i]));
    assert Words(w) == buffer[1 .. 1 + 4 * STATUS_WORDS] by {
      WordsOfReads(w, buffer, 1);
    }
    w
  }

  /** The eleven counters the status report prints, in order. */
  function StatusReport(buffer: seq<byte>): (fields: seq<Int32>)
    requires |buffer| >= 1 + 4 * STATUS_WORDS
    ensures |fields| == STATUS_FIELDS
    ensures Words(fields) == buffer[1 .. 1 + 4 * STATUS_FIELDS]
  {
    var w := StatusWords(buffer);
    var fields := w[..STATUS_FIELDS];
    assert Words(fields) == buffer[1 .. 1 + 4 * STATUS_FIELDS] by {
      WordsOfReads(fields, buffer, 1);
    }
    fields
  }

  /** The status frame the Pi sends: tag, then eleven `int32_t` counters. */
  function EncodeStatus(codes: WireCodes, fields: seq<Int32>): (f: seq<byte>)
    requires |fields| == STATUS_FIELDS
    ensures |f| == 1 + 4 * STATUS_FIELDS
  {
    [CharByte(codes.statusPacket)] + Words(fields)
  }

  /** Field `i` of the report is the `int32_t` at bytes `1+4i .. 4+4i`. */
  lemma StatusFieldAt(buffer: seq<byte>, i: nat)
    requires |buffer| >= 1 + 4 * STATUS_WORDS
    requires i < STATUS_FIELDS
    ensures StatusReport(buffer)[i] == ReadWord(buffer[1 + 4 * i .. 5 + 4 * i])
  {
  }

  /** The status decode never reads past byte 64 of the buffer. */
  lemma StatusReadsFirst65Bytes(a: seq<byte>, b: seq<byte>)
    requires |a| >= 1 + 4 * STATUS_WORDS && |b| >= 1 + 4 * STATUS_WORDS
    requires a[..1 + 4 * STATUS_WORDS] == b[..1 + 4 * STATUS_WORDS]
    ensures StatusWords(a) == StatusWords(b)
  {
    forall i | 0 <= i < STATUS_WORDS
      ensures a[1 + 4 * i .. 5 + 4 * i] == b[1 + 4 * i .. 5 + 4 * i]
    {
      assert a[1 + 4 * i .. 5 + 4 * i] == a[..1 + 4 * STATUS_WORDS][1 + 4 * i .. 5 + 4 * i];
      assert b[1 + 4 * i .. 5 + 4 * i] == b[..1 + 4 * STATUS_WORDS][1 + 4 * i .. 5 + 4 * i];
    }
  }

  /** A status frame followed by any stale bytes reports exactly the counters that were sent. */
  lemma StatusRoundTrip(codes: WireCodes, fields: seq<Int32>, tail: seq<byte>)
    requires |fields| == STATUS_FIELDS
    requires |EncodeStatus(codes, fields) + tail| >= 1 + 4 * STATUS_WORDS
    ensures StatusReport(EncodeStatus(codes, fields) + tail) == fields
  {
    var buffer := EncodeStatus(codes, fields) + tail;
    forall i | 0 <= i < STATUS_FIELDS
      ensures StatusReport(buffer)[i] == fields[i]
    {
      WordsAt(fields, i);
      assert buffer[1 + 4 * i .. 5 + 4 * i] == Words(fields)[4 * i .. 4 * i + 4];
      WordRoundTrip(fields[i]);
    }
  }

  /** Every status buffer reports the counters whose status frame is its first 45 bytes. */
  lemma StatusReportReencodes(codes: WireCodes, buffer: seq<byte>)
    requires |buffer| >= 1 + 4 * STATUS_WORDS
    requires SignedChar(buffer[0]) == codes.statusPacket
    ensures EncodeStatus(codes, StatusReport(buffer)) == buffer[..1 + 4 * STATUS_FIELDS]
  {
    ByteRoundTrip(buffer[0]);
    assert buffer[..1 + 4 * STATUS_FIELDS] == [buffer[0]] + buffer[1 .. 1 + 4 * STATUS_FIELDS];
  }

  /** The text `handleMessage` prints: the C string starting at byte 1. */
  function MessageText(buffer: seq<byte>): (text: seq<byte>)
    requires |buffer| >= 1
    ensures NoNul(text) && text <= buffer[1..]
    ensures 1 + |text| < |buffer| ==> buffer[1 + |text|] == 0
  {
    CString(buffer[1..])
  }

  /** The message frame the Pi sends: tag, text, terminating NUL. */
  function EncodeMessage(codes: WireCodes, text: seq<byte>): (f: seq<byte>)
    requires NoNul(text)
  {
    [CharByte(codes.messagePacket)] + text + [0]
  }

  /** A message frame followed by stale bytes prints exactly the text that was sent. */
  lemma MessageRoundTrip(codes: WireCodes, text: seq<byte>, tail: seq<byte>)
    requires NoNul(text)
    ensures MessageText(EncodeMessage(codes, text) + tail) == text
  {
    assert (EncodeMessage(codes, text) + tail)[1..] == text + [0] + tail;
    CStringOfTerminated(text, tail);
  }

  /** What the reader prints for one received buffer. */
  datatype Report =
    | ErrorReport(line: string)
    | StatusReportOf(fields: seq<Int32>)
    | MessageReport(text: seq<byte>)
    | Silent

  /** `handleNetwork` on the 128-byte receive buffer. */
  function HandleNetwork(codes: WireCodes, buffer: seq<byte>): (r: Report)
    requires |buffer| == RECV_BUFFER_SIZE
    ensures r.ErrorReport? ==>
      r.line in [MSG_OK, MSG_BAD_PACKET, MSG_BAD_CHECKSUM, MSG_BAD_COMMAND, MSG_BAD_RESPONSE, MSG_CONFUSED]
    ensures r.ErrorReport? ==> r.line == ErrorMessage(codes, buffer)
    ensures r.StatusReportOf? ==>
      |r.fields| == STATUS_FIELDS && Words(r.fields) == buffer[1 .. 1 + 4 * STATUS_FIELDS]
    ensures r.MessageReport? ==> NoNul(r.text) && r.text <= buffer[1..]
    ensures r.MessageReport? && 1 + |r.text| < |buffer| ==> buffer[1 + |r.text|] == 0
  {
    match Dispatch(codes, buffer)
    case ErrorHandler => ErrorReport(ErrorMessage(codes, buffer))
    case StatusHandler => StatusReportOf(StatusReport(buffer))
    case MessageHandler => MessageReport(MessageText(buffer))
    case CommandHandler => Silent
    case NoHandler => Silent
  }

  /** The report shows the handler chosen by byte 0; command and unknown tags print nothing. */
  lemma HandleNetworkFollowsDispatch(codes: WireCodes, buffer: seq<byte>)
    requires |buffer| == RECV_BUFFER_SIZE
    ensures HandleNetwork(codes, buffer).ErrorReport? <==> Dispatch(codes, buffer) == ErrorHandler
    ensures HandleNetwork(codes, buffer).StatusReportOf? <==> Dispatch(codes, buffer) == StatusHandler
    ensures HandleNetwork(codes, buffer).MessageReport? <==> Dispatch(codes, buffer) == MessageHandler
    ensures HandleNetwork(codes, buffer).Silent? <==>
      Dispatch(codes, buffer) == CommandHandler || Dispatch(codes, buffer) == NoHandler
  {
  }

  /** Scenario: a BAD_CHECKSUM error frame runs only the error handler and prints the checksum line. */
  lemma BadChecksumScenario(codes: WireCodes, tail: seq<byte>)
    requires codes.Valid()
    requires |tail| == RECV_BUFFER_SIZE - 2
    ensures var buffer := EncodeError(codes, codes.respBadChecksum) + tail;
            && Dispatch(codes, buffer) == ErrorHandler
            && HandleNetwork(codes, buffer) == ErrorReport(MSG_BAD_CHECKSUM)
  {
    var buffer := EncodeError(codes, codes.respBadChecksum) + tail;
    assert codes.Tags()[0] == codes.errorPacket;
    CharRoundTrip(codes.errorPacket);
    DispatchByTag(codes, buffer);
    ErrorMessageTable(codes, tail);
  }
}

=== FILE: alex_tasks.dfy ===
/**
  The two loops of the Alex operator client: the reader, which dispatches each
  positive-length read of the session, and the writer, which turns keystrokes
  into command frames until the operator quits.
*/
module AlexTasks {
  import opened Bytes
  import opened AlexProtocol
  import TlsClient

  // ---------------------------------------------------------------------------
  // Reader loop
  // ---------------------------------------------------------------------------

  /** One result of `sslRead` into the 128-byte buffer: the length and the bytes written. */
  datatype ReadResult = ReadResult(len: int, bytes: seq<byte>)

  /** A read never returns more than the buffer holds, and writes exactly `len` bytes when positive. */
  predicate ValidRead(r: ReadResult) {
    r.len <= RECV_BUFFER_SIZE && |r.bytes| == (if r.len > 0 then r.len else 0)
  }

  predicate AllValid(results: seq<ReadResult>) {
    forall i :: 0 <= i < |results| ==> ValidRead(results[i])
  }

  /** The reader's state between passes: `networkActive` and the receive buffer. */
  datatype ReaderState = ReaderState(networkActive: bool, buffer: seq<byte>)

  /** What one pass of the reader loop leaves behind, and what it printed. */
  datatype ReaderPass = ReaderPass(state: ReaderState, report: Report, dispatched: bool)

  /** The buffer after a read: the new bytes over the front, stale bytes after them. */
  function Overlay(buffer: seq<byte>, r: ReadResult): (b: seq<byte>)
    requires |buffer| == RECV_BUFFER_SIZE && ValidRead(r)
    ensures |b| == RECV_BUFFER_SIZE
    ensures b[..|r.bytes|] == r.bytes
    ensures b[|r.bytes|..] == buffer[|r.bytes|..]
  {
    r.bytes + buffer[|r.bytes|..]
  }

  /**
    `handleNetwork` as the reader calls it, on the 128-byte receive buffer. The
    reader loop below is stated for any handler; `ReaderThread` passes this one.
  */
  function NetworkHandler(codes: WireCodes): seq<byte> -> Report
  {
    buffer => if |buffer| == RECV_BUFFER_SIZE then HandleNetwork(codes, buffer) else Silent
  }

  /**
    One pass of `readerThread` after `sslRead` returned: `networkActive`
    becomes `len > 0`, and only then is the buffer handed to the handler.
  */
  function ReaderStep(handle: seq<byte> -> Report, buffer: seq<byte>, r: ReadResult): (p: ReaderPass)
    requires |buffer| == RECV_BUFFER_SIZE && ValidRead(r)
    ensures p.state.networkActive <==> r.len > 0
    ensures p.dispatched <==> r.len > 0
    ensures !p.dispatched ==> p.report == Silent
    ensures p.state.buffer == Overlay(buffer, r)
    ensures p.dispatched ==> p.report == handle(p.state.buffer)
  {
    var b := Overlay(buffer, r);
    var active := r.len > 0;
    ReaderPass(ReaderState(active, b), if active then handle(b) else Silent, active)
  }

  /** The receive buffer after the first `n` of a series of results. */
  function BufferAfter(buffer: seq<byte>, results: seq<ReadResult>, n: nat): (b: seq<byte>)
    requires |buffer| == RECV_BUFFER_SIZE && AllValid(results) && n <= |results|
    ensures |b| == RECV_BUFFER_SIZE
  {
    if n == 0 then buffer
    else Overlay(BufferAfter(buffer, results, n - 1), results[n - 1])
  }

  /** How a run of the reader loop over a finite series of results ends. */
  datatype ReaderRun = ReaderRun(reports: seq<Report>, consumed: nat, stopped: bool)

  /** True when some read in the series reports peer close or an error. */
  predicate HasFailedRead(results: seq<ReadResult>) {
    exists i :: 0 <= i < |results| && results[i].len <= 0
  }

  /**
    The reader loop, starting with `networkActive` set. Each positive read is
    dispatched; the first non-positive read clears `networkActive` and ends
    the loop (the caller then runs `stopClient`). A run that exhausts the
    results without a failure is still waiting on the next read.
  */
  method RunReader(handle: seq<byte> -> Report, buffer0: seq<byte>, results: seq<ReadResult>) returns (run: ReaderRun)
    requires |buffer0| == RECV_BUFFER_SIZE && AllValid(results)
    ensures run.consumed <= |results|
    ensures run.stopped <==> HasFailedRead(results)
    ensures run.stopped ==> run.consumed >= 1 && results[run.consumed - 1].len <= 0
    ensures !run.stopped ==> run.consumed == |results|
    ensures |run.reports| == (if run.stopped then run.consumed - 1 else run.consumed)
    ensures forall i :: 0 <= i < |run.reports| ==> results[i].len > 0
    ensures forall i :: 0 <= i < |run.reports| ==>
      run.reports[i] == handle(BufferAfter(buffer0, results, i + 1))
  {
    var networkActive := true;
    var buffer := buffer0;
    var reports: seq<Report> := [];
    var n := 0;
    while networkActive && n < |results|
      invariant 0 <= n <= |results|
      invariant buffer == BufferAfter(buffer0, results, n)
      invariant networkActive ==> |reports| == n
      invariant !networkActive ==> n >= 1 && |reports| == n - 1 && results[n - 1].len <= 0
      invariant forall i :: 0 <= i < |reports| ==> results[i].len > 0
      invariant forall i :: 0 <= i < |reports| ==>
        reports[i] == handle(BufferAfter(buffer0, results, i + 1))
    {
      var pass := ReaderStep(handle, buffer, results[n]);
      networkActive := pass.state.networkActive;
      buffer := pass.state.buffer;
      if pass.dispatched {
        reports := reports + [pass.report];
      }
      n := n + 1;
    }
    if networkActive {
      assert forall i :: 0 <= i < |results| ==> results[i].len > 0;
    }
    run := ReaderRun(reports, n, !networkActive);
  }

  // ---------------------------------------------------------------------------
  // Writer loop
  // ---------------------------------------------------------------------------

  /** One operator input: the typed key, and the pair `getParams` would read for it. */
  datatype Keystroke = Keystroke(key: byte, entered: Params)

  /** How a run of the writer loop over a finite series of keystrokes ends. */
  datatype WriterRun = WriterRun(sent: seq<seq<byte>>, badCommands: nat, consumed: nat, quit: bool)

  /** The frames the writer hands to `sendData` for a series of keystrokes, in order. */
  function FramesFor(codes: WireCodes, ks: seq<Keystroke>): seq<seq<byte>>
  {
    if |ks| == 0 then []
    else
      var last := ks[|ks| - 1];
      FramesFor(codes, ks[..|ks| - 1])
      + (if IsCommandKey(last.key) then [EncodeCommand(codes, Command(last.key, CommandParams(last.key, last.entered).value))] else [])
  }

  /** The number of keystrokes among `ks` that are neither commands nor quit. */
  function BadCount(ks: seq<Keystroke>): nat
  {
    if |ks| == 0 then 0
    else BadCount(ks[..|ks| - 1])
         + (if !IsCommandKey(ks[|ks| - 1].key) && !IsKey(ks[|ks| - 1].key, QUIT_KEYS) then 1 else 0)
  }

  predicate HasQuitKey(ks: seq<Keystroke>) {
    exists i :: 0 <= i < |ks| && IsKey(ks[i].key, QUIT_KEYS)
  }

  /**
    `writerThread`: sends one frame per command key, reports every unknown key
    and continues, and stops at the first `q` or `Q` (the caller then runs
    `stopClient`).
  */
  method RunWriter(codes: WireCodes, ks: seq<Keystroke>) returns (run: WriterRun)
    ensures run.consumed <= |ks|
    ensures run.quit <==> HasQuitKey(ks)
    ensures run.quit ==> run.consumed >= 1 && IsKey(ks[run.consumed - 1].key, QUIT_KEYS)
    ensures !run.quit ==> run.consumed == |ks|
    ensures !HasQuitKey(ks[..if run.quit then run.consumed - 1 else run.consumed])
    ensures run.sent == FramesFor(codes, ks[..run.consumed])
    ensures run.badCommands == BadCount(ks[..run.consumed])
    ensures forall j :: 0 <= j < |run.sent| ==>
      |run.sent[j]| == COMMAND_FRAME_SIZE && run.sent[j][0] == CharByte(codes.commandPacket)
  {
    var quit := false;
    var sent: seq<seq<byte>> := [];
    var bad := 0;
    var n := 0;
    while !quit && n < |ks|
      invariant 0 <= n <= |ks|
      invariant quit ==> n >= 1 && IsKey(ks[n - 1].key, QUIT_KEYS)
      invariant !HasQuitKey(ks[..if quit then n - 1 else n])
      invariant sent == FramesFor(codes, ks[..n])
      invariant bad == BadCount(ks[..n])
      invariant forall j :: 0 <= j < |sent| ==>
        |sent[j]| == COMMAND_FRAME_SIZE && sent[j][0] == CharByte(codes.commandPacket)
    {
      assert ks[..n + 1][..n] == ks[..n];
      var k := ks[n];
      match WriterStep(codes, k.key, k.entered) {
        case Send(frame) =>
          sent := sent + [frame];
        case Quit =>
          quit := true;
        case BadCommand =>
          bad := bad + 1;
      }
      n := n + 1;
    }
    if !quit {
      assert ks[..n] == ks;
    } else {
      assert ks[..n - 1] + [ks[n - 1]] == ks[..n];
    }
    run := WriterRun(sent, bad, n, quit);
  }

  // ---------------------------------------------------------------------------
  // Thread bodies: each loop, then `stopClient`
  // ---------------------------------------------------------------------------

  /**
    `readerThread`: the reader loop, then `stopClient` once it has ended. The
    shutdown is requested once, by the read that failed, and never while reads
    keep succeeding.
  */
  method ReaderThread(codes: WireCodes, ctl: TlsClient.Control, buffer0: seq<byte>, results: seq<ReadResult>)
    returns (run: ReaderRun, ctl': TlsClient.Control)
    requires |buffer0| == RECV_BUFFER_SIZE && AllValid(results)
    ensures run.stopped <==> HasFailedRead(results)
    ensures run.consumed <= |results|
    ensures run.stopped ==> run.consumed >= 1 && results[run.consumed - 1].len <= 0
    ensures !run.stopped ==> run.consumed == |results|
    ensures |run.reports| == (if run.stopped then run.consumed - 1 else run.consumed)
    ensures forall i :: 0 <= i < |run.reports| ==>
      results[i].len > 0 && run.reports[i] == HandleNetwork(codes, BufferAfter(buffer0, results, i + 1))
    ensures run.stopped ==> TlsClient.ClientIsRunning(ctl') == 0
    ensures !run.stopped ==> ctl' == ctl
  {
    run := RunReader(NetworkHandler(codes), buffer0, results);
    ctl' := ctl;
    if run.stopped {
      ctl' := TlsClient.Request(ctl, TlsClient.StopClient);
    }
  }

  /** `writerThread`: the writer loop, then `stopClient` once the operator has quit. */
  method WriterThread(codes: WireCodes, ctl: TlsClient.Control, ks: seq<Keystroke>)
    returns (run: WriterRun, ctl': TlsClient.Control)
    ensures run.consumed <= |ks|
    ensures run.quit <==> HasQuitKey(ks)
    ensures run.quit ==> run.consumed >= 1 && IsKey(ks[run.consumed - 1].key, QUIT_KEYS)
    ensures !run.quit ==> run.consumed == |ks|
    ensures !HasQuitKey(ks[..if run.quit then run.consumed - 1 else run.consumed])
    ensures run.sent == FramesFor(codes, ks[..run.consumed])
    ensures run.badCommands == BadCount(ks[..run.consumed])
    ensures run.quit ==> TlsClient.ClientIsRunning(ctl') == 0
    ensures !run.quit ==> ctl' == ctl
  {
    run := RunWriter(codes, ks);
    ctl' := ctl;
    if run.quit {
      ctl' := TlsClient.Request(ctl, TlsClient.StopClient);
    }
  }
}

=== FILE: bytes.dfy ===
/** Optional values, used for decoders that can reject their input. */
module Wrappers {
  datatype Option<+T> = None | Some(value: T)
}

/**
  Octets, C `char` views of them and the host's in-memory layout of `int32_t`.

  The C code copies integers into and out of byte buffers with `memcpy`, so the
  bytes on the wire are whatever the host's memory layout is. This model fixes
  that layout explicitly: little-endian two's complement, four bytes per
  `int32_t`, and `char` signed with eight bits.
*/
module Bytes {

  /** One octet of a buffer. */
  type byte = b: int | 0 <= b < 256

  /** The values of a C `int32_t`. */
  type Int32 = x: int | -0x8000_0000 <= x < 0x8000_0000

  /** True when `v` fits in a signed eight-bit `char`. */
  predicate IsChar(v: int) {
    -128 <= v < 128
  }

  /** The value of a byte read through a signed `char`, as `switch(buffer[i])` sees it. */
  function SignedChar(b: byte): (v: int)
    ensures IsChar(v)
    ensures (v - b) % 256 == 0
  {
    if b < 128 then b else b - 256
  }

  /** The byte stored by assigning an `int` to a `char`: the low eight bits. */
  function CharByte(v: int): (b: byte)
    ensures (b - v) % 256 == 0
  {
    v % 256
  }

  /** Storing a char-sized value and reading it back through `char` gives the value again. */
  lemma CharRoundTrip(v: int)
    requires IsChar(v)
    ensures SignedChar(CharByte(v)) == v
  {
  }

  /** Every byte is the storage of the value it reads back as. */
  lemma ByteRoundTrip(b: byte)
    ensures CharByte(SignedChar(b)) == b
  {
  }

  /** The four bytes `memcpy` copies out of an `int32_t` on a little-endian host. */
  function Word(x: Int32): (w: seq<byte>)
    ensures |w| == 4
  {
    var u := if x < 0 then x + 0x1_0000_0000 else x;
    [u % 0x100, u / 0x100 % 0x100, u / 0x1_0000 % 0x100, u / 0x100_0000]
  }

  /** Four little-endian bytes as an unsigned 32-bit value. */
  function Unsigned(w: seq<byte>): int
    requires |w| == 4
  {
    w[0] as int + 0x100 * w[1] as int + 0x1_0000 * w[2] as int + 0x100_0000 * w[3] as int
  }

  /** The `int32_t` that `memcpy` builds from four bytes on a little-endian host. */
  function ReadWord(w: seq<byte>): Int32
    requires |w| == 4
  {
    var u := Unsigned(w);
    if u < 0x8000_0000 then u else u - 0x1_0000_0000
  }

  /** Copying an `int32_t` into memory and back yields the same integer. */
  lemma WordRoundTrip(x: Int32)
    ensures ReadWord(Word(x)) == x
  {
    var u := if x < 0 then x + 0x1_0000_0000 else x;
    var q1 := u / 0x100;
    var q2 := q1 / 0x100;
    var q3 := q2 / 0x100;
    assert u / 0x1_0000 == q2;
    assert u / 0x100_0000 == q3;
    assert q2 == q2 % 0x100 + 0x100 * q3;
    assert q1 == q1 % 0x100 + 0x100 * q2;
    assert u == u % 0x100 + 0x100 * q1;
    assert Unsigned(Word(x)) == u;
  }

  /** Reading four bytes as an `int32_t` and writing it back yields the same bytes. */
  lemma ReadWordRoundTrip(w: seq<byte>)
    requires |w| == 4
    ensures Word(ReadWord(w)) == w
  {
    var u := Unsigned(w);
    assert u / 0x100 == w[1] as int + 0x100 * w[2] as int + 0x1_0000 * w[3] as int;
    assert u / 0x1_0000 == w[2] as int + 0x100 * w[3] as int;
    assert u / 0x100_0000 == w[3] as int;
  }

  /** The bytes of consecutive `int32_t`s, as `memcpy` lays out an `int32_t` array. */
  function Words(xs: seq<Int32>): (w: seq<byte>)
    ensures |w| == 4 * |xs|
  {
    if |xs| == 0 then [] else Word(xs[0]) + Words(xs[1..])
  }

  /** Element `i` of an array sits at bytes `4i .. 4i+3` of its image. */
  lemma {:induction false} WordsAt(xs: seq<Int32>, i: nat)
    requires i < |xs|
    ensures Words(xs)[4 * i .. 4 * i + 4] == Word(xs[i])
  {
    if i > 0 {
      WordsAt(xs[1..], i - 1);
      assert Words(xs)[4 * i .. 4 * i + 4] == Words(xs[1..])[4 * (i - 1) .. 4 * (i - 1) + 4];
    }
  }

  /** Words read one by one out of consecutive 4-byte groups lay those bytes out again. */
  lemma {:induction false} WordsOfReads(xs: seq<Int32>, b: seq<byte>, at: nat)
    requires at + 4 * |xs| <= |b|
    requires forall i :: 0 <= i < |xs| ==> xs[i] == ReadWord(b[at + 4 * i .. at + 4 * i + 4])
    ensures Words(xs) == b[at .. at + 4 * |xs|]
  {
    if |xs| > 0 {
      forall i | 0 <= i < |xs| - 1
        ensures xs[1..][i] == ReadWord(b[at + 4 + 4 * i .. at + 4 + 4 * i + 4])
      {
        assert xs[1..][i] == xs[i + 1];
      }
      WordsOfReads(xs[1..], b, at + 4);
      ReadWordRoundTrip(b[at .. at + 4]);
      assert b[at .. at + 4 * |xs|] == b[at .. at + 4] + b[at + 4 .. at + 4 * |xs|];
    }
  }

  /** True when no byte of `s` is the NUL terminator. */
  predicate NoNul(s: seq<byte>) {
    forall i :: 0 <= i < |s| ==> s[i] != 0
  }

  /**
    The C string stored at the start of `s`: every byte before the first NUL,
    or all of `s` when it holds no NUL.
  */
  function CString(s: seq<byte>): (r: seq<byte>)
    ensures r <= s
    ensures NoNul(r)
    ensures |r| < |s| ==> s[|r|] == 0
  {
    if |s| == 0 || s[0] == 0 then [] else [s[0]] + CString(s[1..])
  }

  /** A string followed by a NUL reads back as that string, whatever follows the NUL. */
  lemma {:induction false} CStringOfTerminated(text: seq<byte>, rest: seq<byte>)
    requires NoNul(text)
    ensures CString(text + [0] + rest) == text
  {
    if |text| > 0 {
      assert (text + [0] + rest)[1..] == text[1..] + [0] + rest;
      CStringOfTerminated(text[1..], rest);
    }
  }

  /** Text with no NUL at all reads back whole. */
  lemma CStringOfUnterminated(text: seq<byte>)
    requires NoNul(text)
    ensures CString(text) == text
  {
  }
}

=== FILE: serial_reassembly.dfy ===
/**
  The Pi side of the serial test program: after sending the start character it
  reads a length-prefixed `TData` record from the Arduino, gathering the bytes
  of successive reads in a holding buffer until the announced size is reached,
  then copies a `TData` out of the front of that buffer.
*/
module SerialReassembly {
  import opened Bytes

  /** Size of both the read buffer and the holding buffer. */
  const SERIAL_BUFFER_SIZE: nat := 128

  /**
    `sizeof(TData)` on the Pi: a `char`, three padding bytes, then two
    little-endian `int32_t`s.
  */
  const TDATA_SIZE: nat := 12

  /**
    One `serialRead` call: the length it returned and the whole 128-byte read
    buffer afterwards (bytes it did not write are whatever the buffer held).
  */
  datatype SerialRead = SerialRead(len: int, data: seq<byte>)

  predicate ValidRead(r: SerialRead) {
    |r.data| == SERIAL_BUFFER_SIZE && r.len <= SERIAL_BUFFER_SIZE
  }

  predicate AllValid(rs: seq<SerialRead>) {
    forall i :: 0 <= i < |rs| ==> ValidRead(rs[i])
  }

  /** The announced size: byte 0 of the first read, through a signed `char`. */
  function TargetSize(first: SerialRead): (t: int)
    requires ValidRead(first)
    ensures -128 <= t < 128
  {
    SignedChar(first.data[0])
  }

  /** What the first read contributes: its bytes after the size prefix. */
  function FirstPayload(first: SerialRead): (p: seq<byte>)
    requires ValidRead(first)
    ensures |p| == (if first.len > 1 then first.len - 1 else 0)
  {
    if first.len > 1 then first.data[1..first.len] else []
  }

  /** What a later read contributes: its first `len` bytes when `len` is positive, else nothing. */
  function ChunkPayload(r: SerialRead): (p: seq<byte>)
    requires ValidRead(r)
    ensures |p| == (if r.len > 0 then r.len else 0)
  {
    if r.len > 0 then r.data[..r.len] else []
  }

  /** The contributions of later reads, in order. */
  function LaterPayload(rs: seq<SerialRead>): seq<byte>
    requires AllValid(rs)
  {
    if |rs| == 0 then [] else LaterPayload(rs[..|rs| - 1]) + ChunkPayload(rs[|rs| - 1])
  }

  /** Every byte gathered from the first read and the later ones, in arrival order. */
  function Gathered(first: SerialRead, later: seq<SerialRead>): seq<byte>
    requires ValidRead(first) && AllValid(later)
  {
    FirstPayload(first) + LaterPayload(later)
  }

  /** The payload of a prefix of the reads is a prefix of the payload of all of them. */
  lemma {:induction false} LaterPayloadPrefix(rs: seq<SerialRead>, k: nat)
    requires AllValid(rs) && k <= |rs|
    ensures LaterPayload(rs[..k]) <= LaterPayload(rs)
  {
    if k < |rs| {
      LaterPayloadPrefix(rs[..|rs| - 1], k);
      assert rs[..|rs| - 1][..k] == rs[..k];
    } else {
      assert rs[..k] == rs;
    }
  }

  /** The gathered bytes grow by one read's contribution per read. */
  lemma GatheredStep(first: SerialRead, later: seq<SerialRead>, k: nat)
    requires ValidRead(first) && AllValid(later) && k < |later|
    ensures Gathered(first, later[..k + 1]) == Gathered(first, later[..k]) + ChunkPayload(later[k])
  {
    assert later[..k + 1][..k] == later[..k];
  }

  /** `memcpy(&dst[at], src, |src|)`: `src` replaces the bytes from `at` on, the rest is kept. */
  function CopyAt(dst: seq<byte>, at: nat, src: seq<byte>): (r: seq<byte>)
    requires at + |src| <= |dst|
    ensures |r| == |dst|
    ensures r[..at] == dst[..at]
    ensures r[at..at + |src|] == src
    ensures r[at + |src|..] == dst[at + |src|..]
  {
    dst[..at] + src + dst[at + |src|..]
  }

  /** Copying right after the first `at` bytes extends them by the copied bytes. */
  lemma CopyExtends(dst: seq<byte>, at: nat, src: seq<byte>)
    requires at + |src| <= |dst|
    ensures CopyAt(dst, at, src)[..at + |src|] == dst[..at] + src
    ensures CopyAt(dst, at, src)[at + |src|..] == dst[at + |src|..]
  {
  }

  /** The copy loop for the first read: bytes 1 to `len - 1` go to the front of the holding buffer. */
  method CopyFirstRead(first: SerialRead, hold0: seq<byte>) returns (hold: seq<byte>, count: int)
    requires ValidRead(first) && |hold0| == SERIAL_BUFFER_SIZE
    ensures count == |FirstPayload(first)|
    ensures |hold| == SERIAL_BUFFER_SIZE
    ensures hold[..count] == FirstPayload(first)
    ensures hold[count..] == hold0[count..]
  {
    var buffer := first.data;
    var len := first.len;
    hold := hold0;
    count := 0;
    var i := 1;
    while i < len
      invariant 1 <= i <= (if len > 1 then len else 1)
      invariant count == i - 1
      invariant |hold| == SERIAL_BUFFER_SIZE
      invariant hold[..count] == buffer[1..i]
      invariant hold[count..] == hold0[count..]
    {
      hold := hold[count := buffer[i]];
      count := count + 1;
      i := i + 1;
    }
  }

  /** One pass of the gathering loop: a positive read is copied in right after the bytes held so far. */
  method Absorb(hold: seq<byte>, count: int, rd: SerialRead) returns (hold': seq<byte>, count': int)
    requires ValidRead(rd) && |hold| == SERIAL_BUFFER_SIZE
    requires 0 <= count && count + |ChunkPayload(rd)| <= SERIAL_BUFFER_SIZE
    ensures count' == count + |ChunkPayload(rd)|
    ensures |hold'| == SERIAL_BUFFER_SIZE
    ensures hold'[..count'] == hold[..count] + ChunkPayload(rd)
    ensures hold'[count'..] == hold[count'..]
  {
    hold', count' := hold, count;
    if rd.len > 0 {
      CopyExtends(hold, count, rd.data[..rd.len]);
      hold' := CopyAt(hold, count, rd.data[..rd.len]);
      count' := count + rd.len;
    }
  }

  /** True when the loop is still short of the announced size before each of the first `k` later reads. */
  predicate ShortBefore(first: SerialRead, later: seq<SerialRead>, k: nat)
    requires ValidRead(first) && AllValid(later) && k <= |later|
  {
    forall j :: 0 <= j < k ==> |Gathered(first, later[..j])| < TargetSize(first)
  }

  /**
    The holding buffer is large enough for every amount the loop can reach:
    after the first `k` later reads, when it was still short before each of them.
  */
  predicate FitsWhileShort(first: SerialRead, later: seq<SerialRead>)
    requires ValidRead(first) && AllValid(later)
  {
    forall k :: 0 <= k <= |later| && ShortBefore(first, later, k) ==>
      |Gathered(first, later[..k])| <= SERIAL_BUFFER_SIZE
  }

  /**
    When the first read already holds the announced size, no later read is
    made, so any later reads are admitted, however large.
  */
  lemma {:induction false} FullFirstReadFits(first: SerialRead, later: seq<SerialRead>)
    requires ValidRead(first) && AllValid(later)
    requires |FirstPayload(first)| >= TargetSize(first)
    ensures FitsWhileShort(first, later)
  {
    assert later[..0] == [];
    forall k | 0 <= k <= |later| && ShortBefore(first, later, k)
      ensures |Gathered(first, later[..k])| <= SERIAL_BUFFER_SIZE
    {
      if k > 0 {
        assert false;
      }
    }
  }

  /** Where the gathering loop stopped. */
  datatype Reassembly = Reassembly(targetSize: int, count: int, hold: seq<byte>, readsUsed: nat)

  /**
    The gathering part of the read loop. The holding buffer starts as `hold0`
    (it is never cleared); `later` are the reads the loop may make after the
    first one. A run that uses up `later` while still short is waiting on the
    next read. Every amount the loop can actually gather must fit the 128-byte
    holding buffer, which the code does not check; reads after the stop point
    are never made and are not bounded.
  */
  method Reassemble(first: SerialRead, later: seq<SerialRead>, hold0: seq<byte>) returns (r: Reassembly)
    requires ValidRead(first) && AllValid(later) && |hold0| == SERIAL_BUFFER_SIZE
    requires FitsWhileShort(first, later)
    ensures r.targetSize == TargetSize(first)
    ensures r.readsUsed <= |later|
    ensures r.count == |Gathered(first, later[..r.readsUsed])| <= SERIAL_BUFFER_SIZE
    ensures |r.hold| == SERIAL_BUFFER_SIZE
    ensures r.hold[..r.count] == Gathered(first, later[..r.readsUsed])
    ensures r.hold[r.count..] == hold0[r.count..]
    ensures r.count < r.targetSize ==> r.readsUsed == |later|
    ensures ShortBefore(first, later, r.readsUsed)
    ensures |FirstPayload(first)| >= r.targetSize ==> r.readsUsed == 0
  {
    var targetSize := SignedChar(first.data[0]);
    var hold, count := CopyFirstRead(first, hold0);
    assert later[..0] == [];

    var used := 0;
    while count < targetSize && used < |later|
      invariant used <= |later|
      invariant count == |Gathered(first, later[..used])| <= SERIAL_BUFFER_SIZE
      invariant |hold| == SERIAL_BUFFER_SIZE
      invariant hold[..count] == Gathered(first, later[..used])
      invariant hold[count..] == hold0[count..]
      invariant ShortBefore(first, later, used)
    {
      ghost var shortSoFar := |Gathered(first, later[..used])|;
      assert shortSoFar < targetSize;
      GatheredStep(first, later, used);
      assert ShortBefore(first, later, used + 1);
      assert |Gathered(first, later[..used + 1])| <= SERIAL_BUFFER_SIZE;
      ghost var before := hold;
      hold, count := Absorb(hold, count, later[used]);
      assert hold[count..] == before[count..] == hold0[count..];
      used := used + 1;
    }
    r := Reassembly(targetSize, count, hold, used);
  }

  /** A later read with a non-positive length adds nothing. */
  lemma FailedReadAddsNothing(first: SerialRead, later: seq<SerialRead>, rd: SerialRead)
    requires ValidRead(first) && AllValid(later) && ValidRead(rd)
    requires rd.len <= 0
    ensures Gathered(first, later + [rd]) == Gathered(first, later)
  {
    assert (later + [rd])[..|later|] == later;
  }

  /** A later read with a positive length adds exactly its `len` bytes, right after the others. */
  lemma ReadAppends(first: SerialRead, later: seq<SerialRead>, rd: SerialRead)
    requires ValidRead(first) && AllValid(later) && ValidRead(rd)
    requires rd.len > 0
    ensures Gathered(first, later + [rd]) == Gathered(first, later) + rd.data[..rd.len]
    ensures |Gathered(first, later + [rd])| == |Gathered(first, later)| + rd.len
  {
    assert (later + [rd])[..|later|] == later;
  }

  /** The record the Pi copies out of the holding buffer. */
  datatype TData = TData(c: byte, x: Int32, y: Int32)

  /** `memcpy(&test, tmpHold, sizeof(TData))` with the Pi's layout. */
  function DecodeTData(hold: seq<byte>): (t: TData)
    requires |hold| >= TDATA_SIZE
    ensures EncodeTData(t, hold[1..4]) == hold[..TDATA_SIZE]
  {
    ReadWordRoundTrip(hold[4..8]);
    ReadWordRoundTrip(hold[8..12]);
    assert hold[..TDATA_SIZE] == [hold[0]] + hold[1..4] + hold[4..8] + hold[8..12];
    TData(hold[0], ReadWord(hold[4..8]), ReadWord(hold[8..12]))
  }

  /** The bytes of a `TData` in the Pi's layout, with the given padding bytes. */
  function EncodeTData(t: TData, padding: seq<byte>): (b: seq<byte>)
    requires |padding| == 3
    ensures |b| == TDATA_SIZE
  {
    [t.c] + padding + Word(t.x) + Word(t.y)
  }

  /** A record laid out in the Pi's layout is read back unchanged, whatever the padding and trailing bytes. */
  lemma TDataRoundTrip(t: TData, padding: seq<byte>, tail: seq<byte>)
    requires |padding| == 3
    ensures DecodeTData(EncodeTData(t, padding) + tail) == t
  {
    var b := EncodeTData(t, padding) + tail;
    assert b[4..8] == Word(t.x);
    assert b[8..12] == Word(t.y);
    WordRoundTrip(t.x);
    WordRoundTrip(t.y);
  }

  /** The decode reads the first `sizeof(TData)` bytes and nothing else. */
  lemma TDataReadsPrefixOnly(a: seq<byte>, b: seq<byte>)
    requires |a| >= TDATA_SIZE && |b| >= TDATA_SIZE
    requires a[..TDATA_SIZE] == b[..TDATA_SIZE]
    ensures DecodeTData(a) == DecodeTData(b)
  {
    assert a[4..8] == a[..TDATA_SIZE][4..8];
    assert b[4..8] == b[..TDATA_SIZE][4..8];
    assert a[8..12] == a[..TDATA_SIZE][8..12];
    assert b[8..12] == b[..TDATA_SIZE][8..12];
  }

  /**
    One pass of the Pi's main loop after the start character: gather, then
    decode. When fewer than `sizeof(TData)` bytes were gathered, the rest of
    the record comes from whatever the holding buffer held before.
  */
  method ReceiveTData(first: SerialRead, later: seq<SerialRead>, hold0: seq<byte>)
    returns (test: TData, r: Reassembly)
    requires ValidRead(first) && AllValid(later) && |hold0| == SERIAL_BUFFER_SIZE
    requires FitsWhileShort(first, later)
    ensures r.targetSize == TargetSize(first)
    ensures r.readsUsed <= |later|
    ensures r.count == |Gathered(first, later[..r.readsUsed])| <= SERIAL_BUFFER_SIZE
    ensures ShortBefore(first, later, r.readsUsed)
    ensures r.count >= r.targetSize || r.readsUsed == |later|
    ensures test == DecodeTData(Gathered(first, later[..r.readsUsed]) + hold0[r.count..])
    ensures r.count >= TDATA_SIZE ==> test == DecodeTData(Gathered(first, later[..r.readsUsed])[..TDATA_SIZE])
  {
    r := Reassemble(first, later, hold0);
    assert r.hold == r.hold[..r.count] + r.hold[r.count..];
    test := DecodeTData(r.hold);
    if r.count >= TDATA_SIZE {
      var g := Gathered(first, later[..r.readsUsed]);
      assert r.hold[..TDATA_SIZE] == g[..TDATA_SIZE];
      TDataReadsPrefixOnly(r.hold, g[..TDATA_SIZE]);
    }
  }
}

=== FILE: tls_client.dfy ===
/**
  The TLS client wrapper: the process-wide exit flag with the calls and signal
  handlers that set it, the configuration `createClient` copies into its
  fixed-size globals, and the order in which the client loop sets up the
  session, starts the reader and writer tasks, and tears everything down.

  Sockets, name resolution, the TLS library and threads are not modelled; the
  results they return are inputs.
*/
module TlsClient {
  import opened Bytes
  import opened Wrappers

  const MAX_FNAME_LEN: nat := 128
  const MAX_HOST_NAME_LEN: nat := 256

  // ---------------------------------------------------------------------------
  // Exit flag
  // ---------------------------------------------------------------------------

  /** The exit flag `_exitFlag`, as one sequential state. */
  datatype Control = Control(exitFlag: int)

  /** The flag as the program starts. */
  const INITIAL_CONTROL := Control(0)

  /** `client_is_running()`: C's `!_exitFlag`. */
  function ClientIsRunning(c: Control): (running: int)
    ensures running == 0 || running == 1
    ensures running != 0 <==> c.exitFlag == 0
  {
    if c.exitFlag == 0 then 1 else 0
  }

  /** The three signals `createClient` installs handlers for. */
  datatype Signal = SigInt | SigTerm | SigKill

  /** Everything that writes the flag: `stopClient()` and the three signal handlers. */
  datatype StopRequest = StopClient | SignalHandler(sig: Signal)

  /** The effect of one request on the flag. */
  function Request(c: Control, e: StopRequest): (c': Control)
    ensures ClientIsRunning(c') == 0
    ensures c.exitFlag == 1 ==> c' == c
  {
    Control(1)
  }

  /** The flag after a series of requests, in order. */
  function RequestAll(c: Control, es: seq<StopRequest>): Control
  {
    if |es| == 0 then c else Request(RequestAll(c, es[..|es| - 1]), es[|es| - 1])
  }

  /** Any request, in any state, leaves the client stopped. */
  lemma RequestStops(c: Control, e: StopRequest)
    ensures ClientIsRunning(Request(c, e)) == 0
  {
  }

  /** A second request changes nothing: stopping is idempotent. */
  lemma RequestIdempotent(c: Control, e1: StopRequest, e2: StopRequest)
    ensures Request(Request(c, e1), e2) == Request(c, e1)
  {
  }

  /** Requests only ever set the flag to 1; nothing resets it. */
  lemma {:induction false} RequestsOnlySet(c: Control, es: seq<StopRequest>)
    ensures |es| == 0 ==> RequestAll(c, es) == c
    ensures |es| > 0 ==> RequestAll(c, es).exitFlag == 1
  {
    if |es| > 0 {
      RequestsOnlySet(c, es[..|es| - 1]);
    }
  }

  /** From startup, the client runs exactly as long as nothing has asked it to stop. */
  lemma RunningUntilFirstRequest(es: seq<StopRequest>)
    ensures ClientIsRunning(RequestAll(INITIAL_CONTROL, es)) == 1 <==> |es| == 0
  {
    RequestsOnlySet(INITIAL_CONTROL, es);
  }

  /** Once stopped, the client stays stopped whatever requests follow. */
  lemma {:induction false} StopIsPermanent(c: Control, es: seq<StopRequest>, more: seq<StopRequest>)
    requires ClientIsRunning(RequestAll(c, es)) == 0
    ensures ClientIsRunning(RequestAll(c, es + more)) == 0
  {
    if |more| == 0 {
      assert es + more == es;
    } else {
      RequestsOnlySet(c, es + more);
    }
  }

  // ---------------------------------------------------------------------------
  // Configuration capture
  // ---------------------------------------------------------------------------

  function Min(a: nat, b: nat): nat {
    if a <= b then a else b
  }

  function Zeros(n: nat): (z: seq<byte>)
    ensures |z| == n
    ensures forall i :: 0 <= i < n ==> z[i] == 0
  {
    seq(n, _ => 0)
  }

  /**
    `strncpy(dst, src, n)` into an `n`-byte array: the string, then NUL
    padding; a string of `n` bytes or more is cut to `n` with no terminator.
  */
  function StrNCpy(src: seq<byte>, n: nat): (dst: seq<byte>)
    requires NoNul(src)
    ensures |dst| == n
    ensures CString(dst) == src[..Min(|src|, n)]
    ensures forall i :: |src| <= i < n ==> dst[i] == 0
  {
    if |src| >= n then
      CStringOfUnterminated(src[..n]);
      src[..n]
    else
      CStringOfTerminated(src, Zeros(n - |src| - 1));
      assert src + [0] + Zeros(n - |src| - 1) == src + Zeros(n - |src|);
      src + Zeros(n - |src|)
  }

  /** A reader or writer entry point, or NULL. */
  datatype TaskPtr = NullTask | TaskFn(id: nat)

  /** The globals `createClient` writes. */
  datatype ClientConfig = ClientConfig(
    serverName: seq<byte>, serverPort: int,
    verifyServer: int, caCertFname: seq<byte>, serverNameOnCert: seq<byte>,
    sendCert: int, clientCertFname: seq<byte>, clientKeyFname: seq<byte>,
    readerThread: TaskPtr, writerThread: TaskPtr)
  {
    /** Every name field has the size of its array. */
    predicate WellSized() {
      && |serverName| == MAX_HOST_NAME_LEN
      && |caCertFname| == MAX_FNAME_LEN
      && |serverNameOnCert| == MAX_HOST_NAME_LEN
      && |clientCertFname| == MAX_FNAME_LEN
      && |clientKeyFname| == MAX_FNAME_LEN
    }
  }

  /** The globals before any call: static storage is zero. */
  const INITIAL_CONFIG := ClientConfig(
    Zeros(MAX_HOST_NAME_LEN), 0, 0, Zeros(MAX_FNAME_LEN), Zeros(MAX_HOST_NAME_LEN),
    0, Zeros(MAX_FNAME_LEN), Zeros(MAX_FNAME_LEN), NullTask, NullTask)

  /** The arguments of `createClient`; strings are their bytes before the terminator. */
  datatype ClientArgs = ClientArgs(
    serverName: seq<byte>, serverPort: int,
    verifyServer: int, caCertFname: seq<byte>, serverNameOnCert: seq<byte>,
    sendCert: int, clientCertFname: seq<byte>, clientPrivateKey: seq<byte>,
    readerThread: TaskPtr, writerThread: TaskPtr)
  {
    predicate CStrings() {
      NoNul(serverName) && NoNul(caCertFname) && NoNul(serverNameOnCert)
      && NoNul(clientCertFname) && NoNul(clientPrivateKey)
    }
  }

  /**
    The configuration half of `createClient`. The CA certificate and the
    server name on the certificate are copied only when `verifyServer` is
    nonzero; the client certificate and key only when `sendCert` is nonzero.
  */
  function CreateClient(prev: ClientConfig, a: ClientArgs): (c: ClientConfig)
    requires prev.WellSized() && a.CStrings()
    ensures c.WellSized()
    ensures CString(c.serverName) == a.serverName[..Min(|a.serverName|, MAX_HOST_NAME_LEN)]
    ensures c.serverPort == a.serverPort
    ensures c.verifyServer == a.verifyServer && c.sendCert == a.sendCert
    ensures a.verifyServer != 0 ==>
      && CString(c.caCertFname) == a.caCertFname[..Min(|a.caCertFname|, MAX_FNAME_LEN)]
      && CString(c.serverNameOnCert) == a.serverNameOnCert[..Min(|a.serverNameOnCert|, MAX_HOST_NAME_LEN)]
    ensures a.verifyServer == 0 ==>
      c.caCertFname == prev.caCertFname && c.serverNameOnCert == prev.serverNameOnCert
    ensures a.sendCert != 0 ==>
      && CString(c.clientCertFname) == a.clientCertFname[..Min(|a.clientCertFname|, MAX_FNAME_LEN)]
      && CString(c.clientKeyFname) == a.clientPrivateKey[..Min(|a.clientPrivateKey|, MAX_FNAME_LEN)]
    ensures a.sendCert == 0 ==>
      c.clientCertFname == prev.clientCertFname && c.clientKeyFname == prev.clientKeyFname
    ensures c.readerThread == a.readerThread && c.writerThread == a.writerThread
  {
    var verified := a.verifyServer != 0;
    var sending := a.sendCert != 0;
    ClientConfig(
      StrNCpy(a.serverName, MAX_HOST_NAME_LEN), a.serverPort,
      a.verifyServer,
      if verified then StrNCpy(a.caCertFname, MAX_FNAME_LEN) else prev.caCertFname,
      if verified then StrNCpy(a.serverNameOnCert, MAX_HOST_NAME_LEN) else prev.serverNameOnCert,
      a.sendCert,
      if sending then StrNCpy(a.clientCertFname, MAX_FNAME_LEN) else prev.clientCertFname,
      if sending then StrNCpy(a.clientPrivateKey, MAX_FNAME_LEN) else prev.clientKeyFname,
      a.readerThread, a.writerThread)
  }

  /** Names that fit are stored whole and NUL-terminated inside their arrays. */
  lemma ShortNamesStoredWhole(prev: ClientConfig, a: ClientArgs)
    requires prev.WellSized() && a.CStrings()
    requires |a.serverName| < MAX_HOST_NAME_LEN
    ensures CreateClient(prev, a).serverName[|a.serverName|] == 0
    ensures CreateClient(prev, a).serverName[..|a.serverName|] == a.serverName
  {
  }

  /**
    On the first call, a name `createClient` skips still holds the empty
    string its zeroed static array started with.
  */
  lemma SkippedNamesStayEmpty(a: ClientArgs)
    requires a.CStrings()
    ensures INITIAL_CONFIG.WellSized()
    ensures a.verifyServer == 0 ==>
      CString(CreateClient(INITIAL_CONFIG, a).caCertFname) == []
      && CString(CreateClient(INITIAL_CONFIG, a).serverNameOnCert) == []
    ensures a.sendCert == 0 ==>
      CString(CreateClient(INITIAL_CONFIG, a).clientCertFname) == []
      && CString(CreateClient(INITIAL_CONFIG, a).clientKeyFname) == []
  {
    CStringOfTerminated([], Zeros(MAX_FNAME_LEN - 1));
    CStringOfTerminated([], Zeros(MAX_HOST_NAME_LEN - 1));
    assert Zeros(MAX_FNAME_LEN) == [] + [0] + Zeros(MAX_FNAME_LEN - 1);
    assert Zeros(MAX_HOST_NAME_LEN) == [] + [0] + Zeros(MAX_HOST_NAME_LEN - 1);
  }

  // ---------------------------------------------------------------------------
  // Client loop
  // ---------------------------------------------------------------------------

  /**
    What the library calls return to the client loop: `socket()`, whether
    `gethostbyname` found the host, `connect()`, the session `connectSSL`
    returns (None when the handshake fails: the library frees the session and
    returns NULL), `verifyCertificate`, and the stop requests made while the
    loop waits.
  */
  datatype Provider = Provider(
    socketFd: int, hostResolved: bool, connectResult: int,
    session: Option<nat>, certificateValid: bool,
    requests: seq<StopRequest>)

  /** The observable steps of the client loop, in the order it takes them. */
  datatype Step =
    | ExitProcess(code: int)
    | CloseAndCleanup          // close the socket, free the session and context, TLS and thread cleanup
    | InitTls
    | CreateContext(caCert: seq<byte>, verify: int)
    | LoadClientIdentity(cert: seq<byte>, key: seq<byte>)
    | EnableThreading
    | Established(session: nat)
    | PrintCertificate
    | SetHostVerification(name: seq<byte>)
    | VerifyCertificate(valid: bool)
    | SpawnWriter(task: TaskPtr, session: nat)
    | SpawnReader(task: TaskPtr, session: nat)
    | Return

  /** Context creation, the optional client identity, and thread support for the TLS library. */
  function ContextSetup(cfg: ClientConfig): seq<Step>
  {
    [InitTls, CreateContext(cfg.caCertFname, cfg.verifyServer)]
    + (if cfg.sendCert != 0 then [LoadClientIdentity(cfg.clientCertFname, cfg.clientKeyFname)] else [])
    + [EnableThreading]
  }

  /**
    Server verification. After a failed check the code tears down but does
    not exit, so the loop carries on to start the tasks.
  */
  function Verification(cfg: ClientConfig, valid: bool): seq<Step>
  {
    if cfg.verifyServer == 0 then []
    else
      [PrintCertificate, SetHostVerification(cfg.serverNameOnCert), VerifyCertificate(valid)]
      + (if valid then [] else [CloseAndCleanup])
  }

  /** Writer first, then reader, each only when its pointer is not NULL. */
  function Spawns(cfg: ClientConfig, ssl: nat): seq<Step>
  {
    (if cfg.writerThread != NullTask then [SpawnWriter(cfg.writerThread, ssl)] else [])
    + (if cfg.readerThread != NullTask then [SpawnReader(cfg.readerThread, ssl)] else [])
  }

  /** The wait on the flag: teardown and return once it is set, otherwise still waiting. */
  function Supervise(requests: seq<StopRequest>): seq<Step>
  {
    if ClientIsRunning(RequestAll(INITIAL_CONTROL, requests)) == 0 then [CloseAndCleanup, Return] else []
  }

  /** True when socket, resolution, connect and handshake all succeed. */
  predicate Establishes(p: Provider) {
    p.socketFd >= 0 && p.hostResolved && p.connectResult >= 0 && p.session.Some?
  }

  /** True when the loop gets as far as creating the TLS context. */
  predicate ReachesContext(p: Provider) {
    p.socketFd >= 0 && p.hostResolved
  }

  /**
    `_client_loop` as written. When socket, resolution, connect or handshake
    fails, the last step is an exit with -1.
  */
  function ClientLoop(cfg: ClientConfig, p: Provider): (trace: seq<Step>)
    ensures |trace| >= 1
    ensures !Establishes(p) ==> trace[|trace| - 1] == ExitProcess(-1)
  {
    if p.socketFd < 0 then [ExitProcess(-1)]
    else if !p.hostResolved then [CloseAndCleanup, ExitProcess(-1)]
    else if p.connectResult < 0 then ContextSetup(cfg) + [ExitProcess(-1)]
    else match p.session
      case None => ContextSetup(cfg) + [ExitProcess(-1)]
      case Some(ssl) =>
        ContextSetup(cfg) + [Established(ssl)] + Verification(cfg, p.certificateValid)
        + Spawns(cfg, ssl) + Supervise(p.requests)
  }

  /**
    The process exits exactly when one of the setup stages fails; once the
    host is resolved the TLS context is set up first, and an established
    session comes right after it.
  */
  lemma ExitIffSetupFails(cfg: ClientConfig, p: Provider)
    ensures ExitProcess(-1) in ClientLoop(cfg, p) <==> !Establishes(p)
    ensures ReachesContext(p) ==>
      |ClientLoop(cfg, p)| > |ContextSetup(cfg)|
      && ClientLoop(cfg, p)[..|ContextSetup(cfg)|] == ContextSetup(cfg)
    ensures Establishes(p) ==> ClientLoop(cfg, p)[|ContextSetup(cfg)|] == Established(p.session.value)
  {
    if Establishes(p) {
      var ssl := p.session.value;
      var rest := Verification(cfg, p.certificateValid) + Spawns(cfg, ssl) + Supervise(p.requests);
      assert ClientLoop(cfg, p) == ContextSetup(cfg) + [Established(ssl)] + rest;
      assert ExitProcess(-1) !in rest;
    }
  }

  predicate LoadsIdentity(trace: seq<Step>) {
    exists i :: 0 <= i < |trace| && trace[i].LoadClientIdentity?
  }

  predicate VerifiesServer(trace: seq<Step>) {
    exists i :: 0 <= i < |trace| && trace[i].VerifyCertificate?
  }

  predicate SpawnsWriter(trace: seq<Step>) {
    exists i :: 0 <= i < |trace| && trace[i].SpawnWriter?
  }

  predicate SpawnsReader(trace: seq<Step>) {
    exists i :: 0 <= i < |trace| && trace[i].SpawnReader?
  }

  /** Number of teardowns in a trace. */
  function Teardowns(trace: seq<Step>): nat
  {
    multiset(trace)[CloseAndCleanup]
  }

  /** The client identity is loaded exactly when `_send_cert` is set, with the stored names. */
  lemma IdentityIffSendCert(cfg: ClientConfig, p: Provider)
    requires ReachesContext(p)
    ensures LoadsIdentity(ClientLoop(cfg, p)) <==> cfg.sendCert != 0
    ensures cfg.sendCert != 0 ==>
      LoadClientIdentity(cfg.clientCertFname, cfg.clientKeyFname) in ClientLoop(cfg, p)
  {
    var trace := ClientLoop(cfg, p);
    var setup := ContextSetup(cfg);
    assert trace[..|setup|] == setup;
    if cfg.sendCert != 0 {
      assert setup[2] == LoadClientIdentity(cfg.clientCertFname, cfg.clientKeyFname);
      assert trace[2] == setup[2];
    } else {
      forall i | 0 <= i < |trace|
        ensures !trace[i].LoadClientIdentity?
      {
        if i >= |setup| {
          assert trace[i] in trace[|setup|..];
        }
      }
    }
  }

  /** Verification runs exactly when a session is established and `_verify_server` is set. */
  lemma VerificationIffVerifyServer(cfg: ClientConfig, p: Provider)
    ensures VerifiesServer(ClientLoop(cfg, p)) <==> Establishes(p) && cfg.verifyServer != 0
    ensures Establishes(p) && cfg.verifyServer != 0 ==>
      SetHostVerification(cfg.serverNameOnCert) in ClientLoop(cfg, p)
  {
    var trace := ClientLoop(cfg, p);
    if Establishes(p) && cfg.verifyServer != 0 {
      var pre := ContextSetup(cfg) + [Established(p.session.value)];
      assert trace[|pre| + 1] == SetHostVerification(cfg.serverNameOnCert);
      assert trace[|pre| + 2].VerifyCertificate?;
    } else {
      forall i | 0 <= i < |trace|
        ensures !trace[i].VerifyCertificate?
      {
      }
    }
  }

  /**
    The writer starts exactly when a session is established and its pointer is
    not NULL, and likewise the reader; the writer starts first, and both get
    the established session.
  */
  lemma TasksStartForNonNullPointers(cfg: ClientConfig, p: Provider)
    ensures SpawnsWriter(ClientLoop(cfg, p)) <==> Establishes(p) && cfg.writerThread != NullTask
    ensures SpawnsReader(ClientLoop(cfg, p)) <==> Establishes(p) && cfg.readerThread != NullTask
    ensures forall i :: 0 <= i < |ClientLoop(cfg, p)| && ClientLoop(cfg, p)[i].SpawnWriter? ==>
      ClientLoop(cfg, p)[i] == SpawnWriter(cfg.writerThread, p.session.value)
    ensures forall i :: 0 <= i < |ClientLoop(cfg, p)| && ClientLoop(cfg, p)[i].SpawnReader? ==>
      ClientLoop(cfg, p)[i] == SpawnReader(cfg.readerThread, p.session.value)
    ensures forall i, j ::
      (0 <= i < |ClientLoop(cfg, p)| && 0 <= j < |ClientLoop(cfg, p)| &&
       ClientLoop(cfg, p)[i].SpawnWriter? && ClientLoop(cfg, p)[j].SpawnReader?) ==> i < j
  {
    var trace := ClientLoop(cfg, p);
    if Establishes(p) {
      var ssl := p.session.value;
      var pre := ContextSetup(cfg) + [Established(ssl)] + Verification(cfg, p.certificateValid);
      var sp := Spawns(cfg, ssl);
      var post := Supervise(p.requests);
      assert trace == pre + sp + post;
      forall i | 0 <= i < |trace|
        ensures trace[i].SpawnWriter? || trace[i].SpawnReader? ==> |pre| <= i < |pre| + |sp|
      {
        if i < |pre| {
          assert trace[i] == pre[i];
        } else if i >= |pre| + |sp| {
          assert trace[i] == post[i - |pre| - |sp|];
        }
      }
      if cfg.writerThread != NullTask {
        assert trace[|pre|] == SpawnWriter(cfg.writerThread, ssl);
      }
      if cfg.readerThread != NullTask {
        assert trace[|pre| + |sp| - 1] == SpawnReader(cfg.readerThread, ssl);
      }
    } else {
      forall i | 0 <= i < |trace|
        ensures !trace[i].SpawnWriter? && !trace[i].SpawnReader?
      {
      }
    }
  }

  /**
    The loop returns only after it has seen the flag set, and then its last
    two steps are the teardown and the return. While the flag is clear the
    established loop never returns.
  */
  lemma TeardownOnlyAfterExitFlag(cfg: ClientConfig, p: Provider)
    requires Establishes(p)
    ensures Return in ClientLoop(cfg, p) <==> |p.requests| > 0
    ensures |p.requests| > 0 ==>
      ClientLoop(cfg, p)[|ClientLoop(cfg, p)| - 2..] == [CloseAndCleanup, Return]
    ensures |p.requests| == 0 ==>
      Teardowns(ClientLoop(cfg, p)) == (if cfg.verifyServer != 0 && !p.certificateValid then 1 else 0)
  {
    var trace := ClientLoop(cfg, p);
    var ssl := p.session.value;
    var pre := ContextSetup(cfg) + [Established(ssl)];
    var ver := Verification(cfg, p.certificateValid);
    var sp := Spawns(cfg, ssl);
    var body := pre + ver + sp;
    var post := Supervise(p.requests);
    assert trace == body + post;
    RunningUntilFirstRequest(p.requests);
    assert Return !in body;
    if |p.requests| > 0 {
      assert post == [CloseAndCleanup, Return];
      assert trace[|trace| - 2..] == post;
    } else {
      assert trace == body;
    }
  }

  /**
    After a failed server check the loop tears down, yet still starts the
    tasks on the freed session; once the flag is set it tears down a second
    time.
  */
  lemma FailedVerificationFallsThrough(cfg: ClientConfig, p: Provider)
    requires Establishes(p)
    requires cfg.verifyServer != 0 && !p.certificateValid
    requires cfg.writerThread != NullTask
    ensures var trace := ClientLoop(cfg, p);
      exists i, j :: 0 <= i < j < |trace| && trace[i] == CloseAndCleanup && trace[j].SpawnWriter?
  {
    var trace := ClientLoop(cfg, p);
    var ssl := p.session.value;
    var pre := ContextSetup(cfg) + [Established(ssl)];
    var ver := Verification(cfg, p.certificateValid);
    assert trace == pre + ver + Spawns(cfg, ssl) + Supervise(p.requests);
    assert trace[|pre| + 3] == CloseAndCleanup;
    assert trace[|pre| + 4] == SpawnWriter(cfg.writerThread, ssl);
  }

  /** The client as started by `createClient`: configuration capture, then the loop. */
  function StartClient(prev: ClientConfig, a: ClientArgs, p: Provider): (trace: seq<Step>)
    requires prev.WellSized() && a.CStrings()
  {
    ClientLoop(CreateClient(prev, a), p)
  }

  /** The certificate files the loop loads are the truncated names passed to `createClient`. */
  lemma StartedClientLoadsGivenIdentity(prev: ClientConfig, a: ClientArgs, p: Provider)
    requires prev.WellSized() && a.CStrings()
    requires ReachesContext(p) && a.sendCert != 0
    ensures exists cert, key ::
      && LoadClientIdentity(cert, key) in StartClient(prev, a, p)
      && CString(cert) == a.clientCertFname[..Min(|a.clientCertFname|, MAX_FNAME_LEN)]
      && CString(key) == a.clientPrivateKey[..Min(|a.clientPrivateKey|, MAX_FNAME_LEN)]
  {
    var cfg := CreateClient(prev, a);
    IdentityIffSendCert(cfg, p);
  }
}
